=== FILE: README.md ===
# Queue view reconciliation and marquee scrolling of ncmpc, in Dafny

This project models two parts of ncmpc, the ncurses client for the Music Player Daemon (MPD).

The first is the queue page (`QueuePage` in `src/screen_queue.cxx`). The page shows the server's play queue in a scrollable list window. While the server reorders, shrinks or grows the queue, the page keeps the cursor on the same queue entry by following the entry's song id. It also re-centres on the playing song. It handles the page's own commands: play, delete, shuffle a range, move rows up or down, and screen update. It handles mouse clicks, and it hides the cursor when the user has been inactive for a while during playback.

The second is the marquee (`BasicMarquee` in `src/BasicMarquee.hxx`). The marquee scrolls text that is too wide for its column. Its buffer holds the text plus the separator twice, and a character offset wraps around inside it.

Everything is pure functions over immutable records:

- `common.dfy` (`Common`) has `Option`, the 32-bit `unsigned` range, and the wrap-around `++`/`--` on it.
- `list_window.dfy` (`ListWindows`) has the list window the page is built on: cursor, range selection, scroll position, and `SetLength`, `SetCursor`, `Center`, `FetchCursor`, `ScrollTo`, `GetRange`. The `ListWindow` implementation is not part of this model. Each operation gets a simple body, with the `scroll-offset` option taken as 0, and a contract that states what the queue page relies on, such as the cursor being a valid row after `SetLength`. `SetLength` also clamps the anchor of a range selection, whether or not a range is selected, because the cursor and the anchor are clamped alike.
- `queue_page.dfy` (`QueuePage`) has the page state, the save and restore of the selection, centring on the playing song, idle-event handling, and the hide-cursor timer.
- `queue_commands.dfy` (`QueueCommands`) has the command and mouse handlers. A handler returns the new page, whether it consumed the input, and the request it sent to the server. The transport's answer is an input, `Reply`. On success that answer carries the client's local copy of the queue afterwards. The handling done by the base `ListPage` class is also an input: the window it leaves behind, or `None`.
- `queue_properties.dfy` (`QueueProperties`) has the properties that relate several calls.
- `marquee.dfy` (`Marquee`) has the marquee state machine.

The queue is a `seq<nat>` of song ids. The player status is an optional record, because the client's status pointer may be null. The hide-cursor timer is a "pending" flag. The idle-event bits are libmpdclient's `MPD_IDLE_QUEUE` (0x4) and `MPD_IDLE_PLAYER` (0x8). libmpdclient itself is not part of this model, and the properties hold for any two distinct bits.

Where `src/screen_queue.cxx` decrements or increments the `unsigned` field `range_base`, the model wraps modulo 2^32. The client does this at lines 661 and 680 even when no range is selected, and then `range_base` really does wrap. `selected--` is proved never to wrap, because the guard at line 653 rules it out.

## Model

| member | source | states |
|---|---|---|
| QueuePage.NewPage | src/screen_queue.cxx:62-70 | a new page has no playing song, no remembered song, no pending timer and is not playing |
| QueuePage.SelectedSong | src/screen_queue.cxx:122-129 | there is a song under the cursor exactly when no range is selected and the cursor is below the queue size; it is the entry at the cursor |
| QueuePage.SaveSelection | src/screen_queue.cxx:131-137 | the remembered id is non-negative exactly when a song is under the cursor, is then that song's id, is -1 otherwise; nothing else changes |
| QueuePage.FindId | src/screen_queue.cxx:154-156 | -1 exactly when the id is not queued; otherwise the position of its first occurrence |
| QueuePage.RestoreSelection | src/screen_queue.cxx:139-159 | the window length becomes the queue size first; with no remembered song nothing else changes; a remembered song still under the cursor leaves the cursor in place; a remembered song still queued ends under the cursor with its id kept; a vanished song leaves the cursor at its numeric position; afterwards the memory is the song under the cursor |
| QueuePage.CurrentSongId | src/screen_queue.cxx:200-209 | -1 unless a status exists and the player is playing or paused, in which case the status's song id |
| QueuePage.CenterPlayingItem | src/screen_queue.cxx:175-198 | no change without status, when stopped, or with a negative song position; otherwise, for a playing row of the list, the playing row is on screen and so is the cursor; with `center_cursor` the cursor is put on it and the range selection ends; without it the range selection is kept and a cursor already on screen stays put |
| QueuePage.OnSongChange | src/screen_queue.cxx:211-224 | returns false and changes nothing exactly when the playing id equals the recorded one; otherwise records the new id and re-centres only with auto-center on and no range selection |
| QueuePage.OnSongChangeSettles | src/screen_queue.cxx:211-224 | reporting the same status a second time is not a song change and changes nothing |
| QueuePage.Update | src/screen_queue.cxx:442-466 | records whether playing; the window length always follows the queue; a QUEUE event re-anchors the selection as `RestoreSelection` does (the remembered id always, the window too when no PLAYER event follows), and without it the remembered song is kept; with neither event the window is only resized; the playing id is consulted only on a PLAYER event, and the window changes after the queue step only when that event reports a new song with auto-center on and no range selection; dirty exactly when QUEUE is set or PLAYER is set and the playing id changed |
| QueuePage.UpdateRecentresNewSong | src/screen_queue.cxx:442-466 | a PLAYER event reporting a new playing song, with auto-center on and no range selection, leaves the playing row visible |
| QueuePage.OnHideCursorTimer | src/screen_queue.cxx:349-369 | the pending flag is cleared; while playing the cursor is hidden and nothing is rescheduled; otherwise the timer is rescheduled and the cursor is untouched |
| QueuePage.OnOpen | src/screen_queue.cxx:371-385 | with the option on, the cursor is shown and the timer scheduled; the remembered id is then the one `RestoreSelection` yields, and so is the window unless re-centring on a new playing song moves it, in which case the playing row is visible; the playing id is recorded |
| QueuePage.OnClose | src/screen_queue.cxx:387-393 | any pending timer is cancelled and nothing else changes |
| QueuePage.CommandPrologue | src/screen_queue.cxx:514-527 | every command becomes the previous command, shows the cursor, and (re)schedules the timer when the option is above 0 |
| QueueCommands.Moved | src/screen_queue.cxx:656-658 | reference for the server's move of one song: its length is unchanged, the moved song lands at the destination, the songs in between shift by one, and the rest stay in place |
| QueueCommands.PlaySelected | src/screen_queue.cxx:606-616 | declined with no request when no song is under the cursor; otherwise requests playing that song's id |
| QueueCommands.DeleteSelected | src/screen_queue.cxx:618-624 | requests deletion of the selected range and leaves the cursor at the range's start with the range selection ended |
| QueueCommands.ShuffleSelected | src/screen_queue.cxx:634-649 | a range of at most one row is declined with no request; a longer range is shuffled; the page is unchanged either way |
| QueueCommands.MoveSelectedUp | src/screen_queue.cxx:651-668 | no request exactly when the range is empty or starts at row 0; on failure the page is untouched; on success the cursor and the anchor go up by exactly one, the window scrolls so the cursor is on screen, and the memory is re-read |
| QueueCommands.MoveSelectedDown | src/screen_queue.cxx:670-687 | no request exactly when the range end reaches the queue size; on failure the page is untouched; on success the cursor and the anchor go down by exactly one, the window scrolls so the cursor is on screen, and the memory is re-read |
| QueueCommands.OnCommand | src/screen_queue.cxx:511-538 | the prologue always runs, so every command shows the cursor, including those the list page handles; a list-page command ends with the list page's window, the cursor shown, and the selection saved; a screen update re-centres on the playing song and puts the cursor on the playing row only when the previous command was a screen update, otherwise it only pulls the cursor back on screen; without a connection the other commands, and with one any command that is not the page's own, are declined with no request and the page left as the prologue left it; with a connection, play, delete, shuffle, move up and move down are exactly their handlers applied after the prologue |
| QueueCommands.OnMouse | src/screen_queue.cxx:468-509 | a double click requests stop; any other click moves the cursor to the clicked row and remembers the song there, a right click also resizing the window to the queue the deletion left; a button-3 click requests deletion exactly when the click left the cursor where it was, and then deletes that row; a button-1 click, with a connection, requests playing the song under the clicked row exactly when there is one, and no other click requests playing |
| QueueProperties.PlayPlaysRemembered | src/screen_queue.cxx:606-616 | on a page whose memory is the song under the cursor, play is handled exactly when a song is remembered, and plays that song |
| QueueProperties.Deleted | src/screen_queue.cxx:618-624 | reference for the server's range deletion: the rows before the range stay, the rows after it move up by its length |
| QueueProperties.DeleteLandsOnFollowingSong | src/screen_queue.cxx:618-624 | after the server deletes the selected rows, the cursor is on the song that followed them |
| QueueProperties.ShuffleStaysInSelection | src/screen_queue.cxx:634-649 | only a range selection is shuffled, and the shuffled rows lie inside the queue and contain the cursor and the anchor |
| QueueProperties.CommandKeepsWindowValid | src/screen_queue.cxx:511-687 | every command keeps the cursor and the anchor on rows of the list, given a list whose length is the queue size |
| QueueProperties.MouseKeepsWindowValid | src/screen_queue.cxx:468-509 | every mouse event keeps the cursor and the anchor on rows of the list, given a list whose length is the queue size |
| QueueProperties.RestoreSelectionIdempotent | src/screen_queue.cxx:139-159 | re-anchoring twice against the same queue is the same as re-anchoring once |
| QueueProperties.SaveThenRestoreStays | src/screen_queue.cxx:131-152 | re-anchoring right after saving, with the length already in sync, changes nothing |
| QueueProperties.RestoreFollowsSong | src/screen_queue.cxx:148-158 | with distinct ids, a remembered song at position k of the new queue puts the cursor on k and keeps the id |
| QueueProperties.RestoreLosesSongPositionally | src/screen_queue.cxx:142-158 | a remembered song that left the queue leaves the cursor at its old position, clamped to the new last row |
| QueueProperties.ReorderScenario | src/screen_queue.cxx:139-159 | ids 10, 11, 12 with the cursor on 11, reordered to 12, 10, 11: the cursor goes to row 2 and 11 stays remembered |
| QueueProperties.UpdateIdempotentUnlessBothEvents | src/screen_queue.cxx:454-465 | a repeated batch of events that does not hold both QUEUE and PLAYER changes nothing more |
| QueueProperties.UpdateBothEventsNotIdempotent | src/screen_queue.cxx:454-465 | a batch with both QUEUE and PLAYER, repeated, can move the cursor: 10 rows, height 2, cursor and memory on song 0 at row 0, playing row 8; the first batch leaves the cursor on row 7 and the repeat returns it to row 0 |
| QueueProperties.MoveUpKeepsSelection | src/screen_queue.cxx:651-668 | after a successful move up, the selected range is one row higher, holds the same songs, and the remembered song is unchanged |
| QueueProperties.MoveDownKeepsSelection | src/screen_queue.cxx:670-687 | after a successful move down, the selected range is one row lower, holds the same songs, and the remembered song is unchanged |
| QueueProperties.ScreenUpdateTwiceSelectsPlaying | src/screen_queue.cxx:515-538 | two consecutive screen updates put the cursor on the playing row |
| QueueProperties.HideThenCommandShows | src/screen_queue.cxx:357-366 | when the timer fires during playback the cursor is hidden and the timer stops; the next command, whether the list page or the queue page handles it, shows the cursor and re-arms the timer |
| QueueProperties.TimerWaitsForPlayback | src/screen_queue.cxx:361-366 | when the timer fires while not playing, the page is unchanged and the timer stays pending |
| Marquee.BasicMarquee.IsDefined | src/BasicMarquee.hxx:47-49 | defined exactly when the width is positive |
| Marquee.Create | src/BasicMarquee.hxx:35-49 | a new marquee has width 0 and so is not defined |
| Marquee.BasicMarquee.Rewind | src/BasicMarquee.hxx:64-66 | the offset becomes 0; text, buffer, width, separator and cycle length are unchanged |
| Marquee.BasicMarquee.Step | src/BasicMarquee.hxx:68-73 | the offset becomes the old offset + 1 or 0; it is below `max_offset` whenever `max_offset` > 0; nothing else changes |
| Marquee.BasicMarquee.Set | src/BasicMarquee.hxx:51-57 | false exactly when the marquee is defined and the same text is already set in the same width, and then nothing changes; otherwise the text and width are taken, the offset restarts at 0, and the buffer is two cycles long |
| Marquee.BasicMarquee.Clear | src/BasicMarquee.hxx:59-62 | the text is removed and the marquee is no longer defined |
| Marquee.StepsAdvance | src/BasicMarquee.hxx:68-73 | below the end of the cycle, k steps add exactly k to the offset |
| Marquee.StepsToCycleEnd | src/BasicMarquee.hxx:68-73 | from inside the cycle, the steps left to its end bring the offset to 0 |
| Marquee.StepPeriod | src/BasicMarquee.hxx:68-73 | from offset 0, exactly `max_offset` steps return to 0, and every smaller positive number of steps k leaves the offset at k |
| Marquee.StepsFullCycleOffset | src/BasicMarquee.hxx:68-73 | `max_offset` steps from any offset inside the cycle bring the offset back to where it started |
| Marquee.StepsFullCycle | src/BasicMarquee.hxx:68-73 | `max_offset` steps from any offset inside the cycle restore the marquee exactly |
| Marquee.VisibleIsRotation | src/BasicMarquee.hxx:17-30 | in a marquee that matches its field documentation, the buffer is twice `max_offset` long, and the `max_offset` characters from the offset are the text-plus-separator rotated by the offset |
| Marquee.ResetKeepsScrolling | src/BasicMarquee.hxx:51-57 | setting the same text in the same width again reports no change and does not restart scrolling, however far it has scrolled |
| Marquee.DefinedLifecycle | src/BasicMarquee.hxx:47-62 | a new or cleared marquee is undefined; after `Set` it is defined exactly when the width given is positive; stepping and rewinding do not change it |
| Marquee.ClearThenSet | src/BasicMarquee.hxx:59-62 | after `Clear`, `Set` always reports a change and starts the new text at offset 0 |

## Left out

- Path completion and the add-path prompt (`src/screen_queue.cxx:226-341`), `CMD_ADD` and `CMD_SAVE_PLAYLIST` are left out. They are interactive line editing and GLib completion callbacks.
- Painting (`Repaint`, `Paint`, `PaintRow`, `screen_queue_lw_callback`) is left out. It is terminal output and song formatting. The `dirty` flag stands for `SetDirty`.
- `GetTitle` and connection-name tracking in `Update` are left out. They are only string formatting.
- `CMD_SELECT_PLAYING`, find and jump, `CMD_SCREEN_SONG`, `CMD_SCREEN_LYRICS`, `CMD_SCREEN_SWAP` and `CMD_LOCATE` are not in the model's command type. They switch to other screens, which are not part of this model.
- The list window's own command and mouse handling (`ListPage::OnCommand`, `ListPage::OnMouse`) is an input of the handlers. Its code is not part of this model.
- The `ListWindow` implementation is not part of this model. Its operations have simple bodies with `scroll-offset` 0. The queue-level proofs use only their contracts: the cursor is clamped by `SetLength`, `SetCursor` ends the range selection, scrolling moves only the window start, `FetchCursor` keeps the window start when it is a row of the list, and `GetRange` is empty on an empty list and otherwise runs from the smaller to the larger of cursor and anchor.
- The transport is not modelled. Requests are returned, and replies are inputs. Error reporting (`mpdclient_handle_error`) and status messages do nothing to the page's state, so they are left out.
- The double click's stop goes through the screen manager's command dispatch, which is not part of this model. The model only records the `Stop` request.
- Timers are a pending flag. Real scheduling and wall-clock time are not modelled.
- `hscroll.Clear()` in `OnClose` and `Paint` is left out. `hscroll` wraps the marquee and is not part of this model.
- `BasicMarquee::ScrollString` is left out. Its implementation file is not part of this model, and the mapping from characters to screen cells depends on the locale.
- `Marquee.BasicMarquee.Set`, `Marquee.BasicMarquee.Clear`: their bodies are not part of this model. They are modelled from the doc comments and the field documentation. The model does not decide whether the text fits its column, because that needs display-width measurement.
- `QueuePage.SaveSelection`: it does not model the `(int)` conversion of an `unsigned` song id. Ids from 2^31 up would turn negative and read as "no selection". Song ids are unbounded naturals here.
- `QueueCommands.DeleteSelected`: the claim that the cursor lands on the range start is made only for a window whose cursor and anchor are rows of the list.
- `QueueProperties.MoveDownKeepsSelection`: it assumes a queue of at most 2^32 entries, so the `unsigned` anchor does not wrap.
- `Marquee.StepPeriod`, `Marquee.StepsFullCycle`, `Marquee.StepsAdvance`, `Marquee.StepsToCycleEnd`, `Marquee.StepsFullCycleOffset`: they assume `max_offset` is at most 2^32. Beyond that, the `unsigned` offset would wrap before reaching `max_offset`.

## Notes

- `CenterPlayingItem` without `center_cursor` can pull the cursor onto the screen with `FetchCursor` and not save the selection. A later QUEUE event therefore moves the cursor back to the remembered song. For this reason `Update` is idempotent except for batches holding both QUEUE and PLAYER (`QueueProperties.UpdateIdempotentUnlessBothEvents`, and `QueueProperties.UpdateBothEventsNotIdempotent` for a batch that is not).
- Four details of the code that the model follows:
  - The hide-cursor timer is first scheduled in `OnOpen` (line 379); the constructor leaves it unscheduled.
  - Every idle event without QUEUE calls `SetLength` with the queue size (line 459), whether or not the size changed.
  - The "previous command was a screen update" memory is a function-level static (line 515), shared by the whole client.
  - A right click deletes the single clicked row with `mpdclient_cmd_delete` (line 499); a range selection is not consulted.

=== FILE: common.dfy ===
/**
 Shared vocabulary of the model: an optional value, the width of the C++
 `unsigned` type, and the wrap-around arithmetic it implies.
 */
module Common {

  /** A value that may be missing, as a null pointer is in the client. */
  datatype Option<+T> = None | Some(value: T)

  /** Number of values of a 32-bit `unsigned`. */
  const U32: int := 0x1_0000_0000

  /** The values a 32-bit `unsigned` can hold. */
  type uint32 = x: int | 0 <= x < U32

  /** `x--` on an `unsigned`: decrements, wrapping 0 around to the largest value. */
  function Dec32(x: uint32): (r: uint32)
    ensures x > 0 ==> r == x - 1
    ensures x == 0 ==> r == U32 - 1
    ensures Inc32(r) == x
  {
    if x == 0 then U32 - 1 else x - 1
  }

  /** `x++` on an `unsigned`: increments, wrapping the largest value around to 0. */
  function Inc32(x: uint32): (r: uint32)
    ensures x < U32 - 1 ==> r == x + 1
    ensures x == U32 - 1 ==> r == 0
  {
    if x == U32 - 1 then 0 else x + 1
  }
}

=== FILE: list_window.dfy ===
/**
 The generic scrollable list window the queue page is built on (ncmpc's
 `ListWindow`).  Its implementation file is not part of this model: each
 operation below is given a simple body (with the `scroll-offset` option taken
 as 0) and a contract that states only what the queue page relies on.
 */
module ListWindows {
  import opened Common

  /** `i` is a valid cursor position in a list of `length` rows; an empty
      list keeps its cursor at 0. */
  predicate InBounds(i: int, length: nat) {
    if length == 0 then i == 0 else 0 <= i < length
  }

  /** Moves `i` onto the nearest valid cursor position. */
  function Clamp(i: nat, length: nat): (r: nat)
    ensures InBounds(r, length)
    ensures r <= i
    ensures i < length ==> r == i
    ensures i >= length > 0 ==> r == length - 1
  {
    if i < length then i else if length > 0 then length - 1 else 0
  }

  /** The selected rows `[startIndex, endIndex)` (ncmpc's `ListWindowRange`). */
  datatype Range = Range(startIndex: nat, endIndex: nat) {
    predicate IsEmpty() {
      startIndex >= endIndex
    }

    predicate Contains(i: nat) {
      startIndex <= i < endIndex
    }
  }

  /**
   The window state: `height` visible rows starting at row `start` of a list
   of `length` rows, the cursor `selected`, and a range selection spanning
   from the anchor `rangeBase` to the cursor while `rangeSelection` is set.
   `rangeBase` is an `unsigned` in the client and is decremented and
   incremented with wrap-around, so it is a `uint32` here.
   */
  datatype ListWindow = ListWindow(
    height: nat,
    length: nat,
    start: nat,
    selected: nat,
    rangeBase: uint32,
    rangeSelection: bool,
    hideCursor: bool)
  {
    /** The cursor, and the anchor of an active range selection, are rows of the list. */
    predicate Valid() {
      && InBounds(selected, length)
      && (rangeSelection ==> InBounds(rangeBase, length))
    }

    /** Row `i` is on screen. */
    predicate Shows(i: nat) {
      start <= i < start + height
    }

    /** Sets the number of rows, pulling the cursor and the anchor back into
        the list; a call that does not change the length changes nothing. */
    function SetLength(n: nat): (r: ListWindow)
      ensures r.length == n
      ensures n != length ==> InBounds(r.selected, n) && InBounds(r.rangeBase, n)
      ensures InBounds(selected, length) ==> InBounds(r.selected, n)
      ensures Valid() ==> r.Valid()
      ensures n == length ==> r == this
      ensures selected < n ==> r.selected == selected
      ensures n != length && selected >= n > 0 ==> r.selected == n - 1
      ensures r.height == height && r.rangeSelection == rangeSelection && r.hideCursor == hideCursor
    {
      if n == length then this
      else
        var w := this.(length := n, selected := Clamp(selected, n), rangeBase := Clamp(rangeBase, n));
        w.ScrollTo(w.selected)
    }

    /** Scrolls just far enough that row `n` is on screen; only `start` moves. */
    function ScrollTo(n: nat): (r: ListWindow)
      ensures r == this.(start := r.start)
      ensures height > 0 ==> r.Shows(n)
      ensures Shows(n) ==> r == this
    {
      if n < start then this.(start := n)
      else if height > 0 && n >= start + height then this.(start := n - height + 1)
      else this
    }

    /** Scrolls so that row `n` is near the middle of the window, or the
        window is at the end of the list; only `start` moves. */
    function Center(n: nat): (r: ListWindow)
      ensures r == this.(start := r.start)
      ensures height > 0 && n < length ==> r.Shows(n)
    {
      var s := if n > height / 2 then n - height / 2 else 0;
      var s' := if s + height > length then (if height < length then length - height else 0) else s;
      this.(start := s')
    }

    /** Moves the cursor to row `i` (clamped), ends any range selection and
        scrolls the cursor into view. */
    function SetCursor(i: nat): (r: ListWindow)
      ensures i < length ==> r.selected == i
      ensures InBounds(r.selected, length)
      ensures !r.rangeSelection
      ensures r.Valid()
      ensures height > 0 ==> r.Shows(r.selected)
      ensures r.length == length && r.height == height && r.rangeBase == rangeBase && r.hideCursor == hideCursor
    {
      var w := this.(rangeSelection := false, selected := Clamp(i, length));
      w.ScrollTo(w.selected)
    }

    /** Moves the cursor to row `i` (clamped) and scrolls it into view,
        keeping the range selection. */
    function MoveCursor(i: nat): (r: ListWindow)
      ensures InBounds(r.selected, length)
      ensures i < length ==> r.selected == i
      ensures r == this.(selected := r.selected, start := r.start)
      ensures Shows(r.selected) ==> r.start == start
    {
      var w := this.(selected := Clamp(i, length));
      w.ScrollTo(w.selected)
    }

    /** Pulls the cursor onto the first or last visible row when scrolling
        has left it off screen; a cursor on screen stays where it is. */
    function FetchCursor(): (r: ListWindow)
      ensures r == this.(selected := r.selected, start := r.start)
      ensures start < length ==> r.start == start
      ensures InBounds(selected, length) ==> InBounds(r.selected, length)
      ensures Shows(selected) ==> r == this
      ensures height > 0 && start < length && selected < length ==> r.Shows(r.selected)
    {
      if start > 0 && selected < start then MoveCursor(start)
      else if height > 0 && start + height < length && selected > start + height - 1 then MoveCursor(start + height - 1)
      else this
    }

    /** The selected rows: the cursor alone, or everything between the
        anchor and the cursor in either order; nothing in an empty list. */
    function GetRange(): (r: Range)
      ensures length == 0 ==> r == Range(0, 0)
      ensures length > 0 ==> r.Contains(selected)
      ensures length > 0 && rangeSelection ==> r.Contains(rangeBase)
      ensures length > 0 && !rangeSelection ==> r == Range(selected, selected + 1)
      ensures length > 0 && rangeSelection ==> r.startIndex == (if selected < rangeBase then selected else rangeBase)
      ensures length > 0 && rangeSelection ==> r.endIndex == (if selected < rangeBase then rangeBase else selected) + 1
      ensures Valid() ==> r.endIndex <= length
    {
      if length == 0 then Range(0, 0)
      else if rangeSelection then
        (if selected < rangeBase then Range(selected, rangeBase + 1) else Range(rangeBase, selected + 1))
      else Range(selected, selected + 1)
    }
  }
}

=== FILE: marquee.dfy ===
/**
 Auto-scrolling of text that does not fit on screen (ncmpc's `BasicMarquee`).

 The marquee keeps the text followed by the separator twice in `buffer`, so
 that the characters visible at any offset are one contiguous slice of it,
 and a character offset that steps around `maxOffset`, the length of text
 plus separator.  Offsets count characters, not screen cells; strings are
 sequences of characters with no locale conversion.
 */
module Marquee {
  import opened Common

  datatype BasicMarquee = BasicMarquee(
    separator: string,
    text: string,
    buffer: string,
    maxOffset: nat,
    width: uint32,
    offset: uint32)
  {
    /** A text is set: the marquee has a screen width. */
    function IsDefined(): (r: bool)
      ensures r <==> width > 0
    {
      width > 0
    }

    /** One period of the scrolled content: the text and then the separator. */
    function Cycle(): string {
      text + separator
    }

    /** The field documentation of a defined marquee: the buffer holds the
        cycle twice, `maxOffset` is the length of one cycle, and the offset is
        inside the cycle (or 0 for an empty cycle). */
    predicate Valid() {
      IsDefined() ==>
        && buffer == Cycle() + Cycle()
        && maxOffset == |Cycle()|
        && (offset < maxOffset || offset == 0)
    }

    /** Scrolls back to the start of the text; nothing else changes. */
    function Rewind(): (r: BasicMarquee)
      ensures r.offset == 0
      ensures r.separator == separator && r.text == text && r.buffer == buffer
      ensures r.maxOffset == maxOffset && r.width == width
      ensures Valid() ==> r.Valid()
    {
      this.(offset := 0)
    }

    /** Scrolls by one character, wrapping to 0 at the end of the cycle (and
        at the end of the `unsigned` range); nothing else changes. */
    function Step(): (r: BasicMarquee)
      ensures r.offset == offset + 1 || r.offset == 0
      ensures maxOffset > 0 ==> r.offset < maxOffset
      ensures maxOffset == 0 ==> r.offset == 0
      ensures r == this.(offset := r.offset)
      ensures Valid() ==> r.Valid()
    {
      var next := Inc32(offset);
      if next >= maxOffset then this.(offset := 0) else this.(offset := next)
    }

    /** `k` consecutive calls of `Step`. */
    function Steps(k: nat): (r: BasicMarquee)
      ensures r == this.(offset := r.offset)
      ensures k > 0 && maxOffset > 0 ==> r.offset < maxOffset
    {
      if k == 0 then this else Steps(k - 1).Step()
    }

    /**
     Sets the text to scroll in `newWidth` screen cells: nothing changes, and
     the answer is false, when the same text is already scrolling in the same
     width; otherwise the buffer and cycle length are rebuilt, scrolling starts
     from the beginning, and the answer is true.
     */
    function Set(newWidth: uint32, newText: string): (r: (bool, BasicMarquee))
      ensures !r.0 ==> r.1 == this
      ensures !r.0 <==> IsDefined() && newWidth == width && newText == text
      ensures r.0 ==> r.1.text == newText && r.1.width == newWidth && r.1.offset == 0
      ensures r.1.separator == separator
      ensures Valid() ==> r.1.Valid()
      ensures r.0 ==> r.1.Valid() && |r.1.buffer| == 2 * r.1.maxOffset
    {
      if IsDefined() && newWidth == width && newText == text then (false, this)
      else
        var cycle := newText + separator;
        (true, this.(text := newText, buffer := cycle + cycle, maxOffset := |cycle|, width := newWidth, offset := 0))
    }

    /** Removes the text; the marquee is no longer defined and may be set again. */
    function Clear(): (r: BasicMarquee)
      ensures !r.IsDefined() && r.Valid()
      ensures r.text == [] && r.buffer == []
      ensures r.separator == separator
    {
      this.(width := 0, text := [], buffer := [])
    }
  }

  /**
   A marquee as constructed with separator `separator`: no text and width 0,
   so not defined.  The client leaves `max_offset` and `offset` uninitialised;
   they are arbitrary inputs here.
   */
  function Create(separator: string, maxOffset: nat, offset: uint32): (m: BasicMarquee)
    ensures !m.IsDefined() && m.Valid()
    ensures m.separator == separator && m.text == []
  {
    BasicMarquee(separator, [], [], maxOffset, 0, offset)
  }

  // ---------------------------------------------------------------------
  // Properties

  /** Below the end of the cycle, each step advances the offset by one. */
  lemma {:induction false} StepsAdvance(m: BasicMarquee, k: nat)
    requires m.maxOffset <= U32 && m.offset + k < m.maxOffset
    ensures m.Steps(k).offset == m.offset + k
  {
    if k > 0 {
      StepsAdvance(m, k - 1);
    }
  }

  /** Steps compose: `a` steps and then `b` more are `a + b` steps. */
  lemma {:induction false} StepsCompose(m: BasicMarquee, a: nat, b: nat, n: nat)
    requires n == a + b
    ensures m.Steps(a).Steps(b) == m.Steps(n)
  {
    if b > 0 {
      StepsCompose(m, a, b - 1, n - 1);
    }
  }

  /** From an offset inside the cycle, the steps left to the end of the
      cycle bring the offset back to 0. */
  lemma StepsToCycleEnd(m: BasicMarquee)
    requires m.offset < m.maxOffset <= U32
    ensures m.Steps(m.maxOffset - m.offset).offset == 0
  {
    var k: nat := m.maxOffset - m.offset;
    StepsAdvance(m, k - 1);
    assert m.Steps(k) == m.Steps(k - 1).Step();
  }

  /** From offset 0, exactly `maxOffset` steps bring the offset back to 0,
      and no smaller positive number of steps does. */
  lemma StepPeriod(m: BasicMarquee)
    requires m.offset == 0 && 0 < m.maxOffset <= U32
    ensures m.Steps(m.maxOffset).offset == 0
    ensures forall k :: 0 < k < m.maxOffset ==> m.Steps(k).offset == k
  {
    StepsToCycleEnd(m);
    forall k | 0 < k < m.maxOffset
      ensures m.Steps(k).offset == k
    {
      StepsAdvance(m, k);
    }
  }

  /** A full period of steps brings the offset back to where it started. */
  lemma StepsFullCycleOffset(m: BasicMarquee)
    requires m.offset < m.maxOffset <= U32
    ensures m.Steps(m.maxOffset).offset == m.offset
  {
    var toEnd: nat := m.maxOffset - m.offset;
    StepsToCycleEnd(m);
    var start := m.Steps(toEnd);
    assert start.maxOffset == m.maxOffset;
    StepsAdvance(start, m.offset);
    StepsCompose(m, toEnd, m.offset, m.maxOffset);
  }

  /** A full period of steps leaves the marquee exactly as it was. */
  lemma StepsFullCycle(m: BasicMarquee)
    requires m.offset < m.maxOffset <= U32
    ensures m.Steps(m.maxOffset) == m
  {
    StepsFullCycleOffset(m);
  }

  /** In a valid marquee, the `maxOffset` characters of the buffer starting
      at the offset are the cycle rotated by the offset: no read wraps around. */
  lemma VisibleIsRotation(m: BasicMarquee)
    requires m.IsDefined() && m.Valid() && m.offset < m.maxOffset
    ensures |m.buffer| == 2 * m.maxOffset
    ensures m.buffer[m.offset..m.offset + m.maxOffset] == m.Cycle()[m.offset..] + m.Cycle()[..m.offset]
  {
  }

  /** Only `Set` with a positive width defines a marquee: a new or cleared
      one is undefined, and scrolling never changes whether it is defined. */
  lemma DefinedLifecycle(m: BasicMarquee, separator: string, maxOffset: nat, offset: uint32, w: uint32, t: string)
    ensures !Create(separator, maxOffset, offset).IsDefined()
    ensures !m.Clear().IsDefined()
    ensures m.Set(w, t).1.IsDefined() <==> w > 0
    ensures m.Step().IsDefined() == m.IsDefined() && m.Rewind().IsDefined() == m.IsDefined()
  {
  }

  /** Setting the text a scrolling marquee already shows, in the same width,
      does not restart it, however far it has scrolled. */
  lemma ResetKeepsScrolling(m: BasicMarquee, w: uint32, t: string, k: nat)
    requires w > 0
    ensures var s := m.Set(w, t).1.Steps(k);
      s.Set(w, t) == (false, s)
  {
  }

  /** A cleared marquee takes a new text: `Set` after `Clear` always reports a change. */
  lemma ClearThenSet(m: BasicMarquee, w: uint32, t: string)
    ensures m.Clear().Set(w, t).0
    ensures m.Clear().Set(w, t).1.text == t && m.Clear().Set(w, t).1.offset == 0
  {
  }
}

=== FILE: queue_commands.dfy ===
/**
 The user-input side of the queue page: the commands the page handles itself
 (ncmpc's `QueuePage::OnCommand`) and mouse clicks (`QueuePage::OnMouse`).

 Requests to the server are returned, not performed: a handler yields the new
 page, whether it consumed the input, and the request it issued, if any.  The
 transport's answer is an input (`Reply`), consulted only when a request is
 issued.  The base list page's own handling of an input (`ListPage`, not part
 of this model) is an input as well: the window it leaves, or `None` when it
 does not handle the input.  It runs after the command prologue has shown the
 cursor and does not hide it again, so its window keeps the prologue's
 hidden-cursor flag.
 */
module QueueCommands {
  import opened Common
  import opened ListWindows
  import opened QueuePage

  /** A request sent to the server. `Move(dest, src)` moves the song at
      position `src` to position `dest`. */
  datatype Request =
    | PlayId(id: SongId)
    | Stop
    | DeleteRange(from: nat, until: nat)
    | DeleteAt(pos: nat)
    | ShuffleRange(from: nat, until: nat)
    | Move(dest: nat, src: nat)

  /** The transport's answer: failure, or success together with the client's
      local copy of the queue as the transport left it. */
  datatype Reply = Failed | Done(queue: Queue)

  /** The page after an input, whether the input was consumed, and the request issued. */
  datatype Outcome = Outcome(page: Page, handled: bool, request: Option<Request>)

  /** The mouse buttons reported by one event: button 1 double-clicked,
      button 1 clicked, button 3 clicked. */
  datatype Buttons = Buttons(double1: bool, click1: bool, click3: bool)

  // ---------------------------------------------------------------------
  // The server's move, as a reference for where songs end up

  /** The queue after the song at `src` is removed and re-inserted at `dest`. */
  function Moved(q: Queue, dest: nat, src: nat): (r: Queue)
    requires src < |q| && dest < |q|
    ensures |r| == |q|
    ensures r[dest] == q[src]
    ensures src <= dest ==> forall i :: src <= i < dest ==> r[i] == q[i + 1]
    ensures dest <= src ==> forall i :: dest < i <= src ==> r[i] == q[i - 1]
    ensures forall i :: 0 <= i < |q| && ((i < dest && i < src) || (i > dest && i > src)) ==> r[i] == q[i]
  {
    var rest := q[..src] + q[src + 1..];
    rest[..dest] + [q[src]] + rest[dest..]
  }

  /** Puts the cursor on `selected` and the anchor on `rangeBase`, then scrolls
      the anchor (during a range selection) and the cursor into view. */
  function ShiftSelection(lw: ListWindow, selected: nat, rangeBase: uint32): (r: ListWindow)
    ensures r == lw.(selected := selected, rangeBase := rangeBase, start := r.start)
    ensures lw.height > 0 ==> r.Shows(selected)
  {
    var lw1 := lw.(selected := selected, rangeBase := rangeBase);
    var lw2 := if lw1.rangeSelection then lw1.ScrollTo(lw1.rangeBase) else lw1;
    lw2.ScrollTo(lw2.selected)
  }

  // ---------------------------------------------------------------------
  // The commands

  /** Plays the song under the cursor; declines when there is none. */
  function PlaySelected(p: Page, q: Queue): (r: Outcome)
    ensures r.page == p
    ensures r.handled <==> SelectedSong(p.lw, q).Some?
    ensures r.handled ==> r.request == Some(PlayId(q[p.lw.selected]))
    ensures !r.handled ==> r.request.None?
  {
    match SelectedSong(p.lw, q)
    case None => Outcome(p, false, None)
    case Some(id) => Outcome(p, true, Some(PlayId(id)))
  }

  /** Deletes the selected rows and leaves the cursor, range selection ended,
      where the first of them was. */
  function DeleteSelected(p: Page): (r: Outcome)
    ensures r.handled
    ensures r.request == Some(DeleteRange(p.lw.GetRange().startIndex, p.lw.GetRange().endIndex))
    ensures p.lw.Valid() ==> r.page.lw.selected == p.lw.GetRange().startIndex
    ensures !r.page.lw.rangeSelection
    ensures r.page == p.(lw := r.page.lw)
  {
    var range := p.lw.GetRange();
    Outcome(p.(lw := p.lw.SetCursor(range.startIndex)), true, Some(DeleteRange(range.startIndex, range.endIndex)))
  }

  /** Shuffles the selected rows; a selection of at most one row is left to
      the client's shuffle-everything command. */
  function ShuffleSelected(p: Page): (r: Outcome)
    ensures r.page == p
    ensures r.handled <==> p.lw.GetRange().endIndex > p.lw.GetRange().startIndex + 1
    ensures r.handled ==> r.request == Some(ShuffleRange(p.lw.GetRange().startIndex, p.lw.GetRange().endIndex))
    ensures !r.handled ==> r.request.None?
  {
    var range := p.lw.GetRange();
    if range.endIndex <= range.startIndex + 1 then Outcome(p, false, None)
    else Outcome(p, true, Some(ShuffleRange(range.startIndex, range.endIndex)))
  }

  /**
   Moves the selected rows up by one: declined, with no request, when the
   selection is empty or starts at the top; otherwise the song just above
   the selection is moved to its end.  On failure nothing changes; on success
   the cursor and the anchor follow the rows up by one and the remembered
   song is re-read from the queue the transport left.
   */
  function MoveSelectedUp(p: Page, reply: Reply): (r: Outcome)
    ensures var range := p.lw.GetRange();
      && (r.request.None? <==> range.startIndex == 0 || range.IsEmpty())
      && (r.request.None? ==> r.page == p && !r.handled)
      && (r.request.Some? ==> r.handled && r.request.value == Move(range.endIndex - 1, range.startIndex - 1))
    ensures r.request.Some? && reply.Failed? ==> r.page == p
    ensures r.request.Some? && reply.Done? ==>
      && r.page.lw.selected + 1 == p.lw.selected
      && Inc32(r.page.lw.rangeBase) == p.lw.rangeBase
      && (p.lw.rangeSelection ==> r.page.lw.rangeBase + 1 == p.lw.rangeBase)
      && r.page.lw == p.lw.(selected := r.page.lw.selected, rangeBase := r.page.lw.rangeBase, start := r.page.lw.start)
      && (p.lw.height > 0 ==> r.page.lw.Shows(r.page.lw.selected))
      && Anchored(r.page, reply.queue)
      && r.page == p.(lw := r.page.lw, selectedSongId := r.page.selectedSongId)
    ensures p.lw.Valid() ==> r.page.lw.Valid()
  {
    var range := p.lw.GetRange();
    if range.startIndex == 0 || range.IsEmpty() then Outcome(p, false, None)
    else
      var request := Some(Move(range.endIndex - 1, range.startIndex - 1));
      match reply
      case Failed => Outcome(p, true, request)
      case Done(q') =>
        Outcome(SaveSelection(p.(lw := ShiftSelection(p.lw, p.lw.selected - 1, Dec32(p.lw.rangeBase))), q'), true, request)
  }

  /**
   Moves the selected rows down by one: declined, with no request, when the
   selection already reaches the end of the queue; otherwise the song just
   below the selection is moved to its start.  On failure nothing changes; on
   success the cursor and the anchor follow the rows down by one and the
   remembered song is re-read from the queue the transport left.
   */
  function MoveSelectedDown(p: Page, q: Queue, reply: Reply): (r: Outcome)
    ensures var range := p.lw.GetRange();
      && (r.request.None? <==> range.endIndex >= |q|)
      && (r.request.None? ==> r.page == p && !r.handled)
      && (r.request.Some? ==> r.handled && r.request.value == Move(range.startIndex, range.endIndex))
    ensures r.request.Some? && reply.Failed? ==> r.page == p
    ensures r.request.Some? && reply.Done? ==>
      && r.page.lw.selected == p.lw.selected + 1
      && r.page.lw.rangeBase == Inc32(p.lw.rangeBase)
      && r.page.lw == p.lw.(selected := r.page.lw.selected, rangeBase := r.page.lw.rangeBase, start := r.page.lw.start)
      && (p.lw.height > 0 ==> r.page.lw.Shows(r.page.lw.selected))
      && Anchored(r.page, reply.queue)
      && r.page == p.(lw := r.page.lw, selectedSongId := r.page.selectedSongId)
    ensures p.lw.Valid() && p.lw.length == |q| ==> r.page.lw.Valid()
  {
    var range := p.lw.GetRange();
    if range.endIndex >= |q| then Outcome(p, false, None)
    else
      var request := Some(Move(range.startIndex, range.endIndex));
      match reply
      case Failed => Outcome(p, true, request)
      case Done(q') =>
        Outcome(SaveSelection(p.(lw := ShiftSelection(p.lw, p.lw.selected + 1, Inc32(p.lw.rangeBase))), q'), true, request)
  }

  /**
   Handles a command: the prologue shows the cursor and re-arms the timer;
   an input the list page handles ends there with the selection saved; a
   screen update re-centres on the playing song, moving the cursor there when
   the previous command was a screen update too and otherwise only pulling it
   back on screen; the remaining commands need a connection and are declined
   without one.
   */
  function OnCommand(p: Page, q: Queue, status: Option<Status>, cmd: Command, settings: Settings,
                     connected: bool, listPage: Option<ListWindow>, reply: Reply): (r: Outcome)
    ensures r.page.lastCommand == cmd
    ensures settings.hideCursor > 0 ==> r.page.hideCursorTimer
    ensures TimerConsistent(p, settings) ==> TimerConsistent(r.page, settings)
    ensures !r.page.lw.hideCursor
    ensures listPage.Some? ==> r.handled && r.request.None? && Anchored(r.page, q)
    ensures listPage.Some? ==> r.page.lw == listPage.value.(hideCursor := false)
    ensures listPage.None? && cmd == ScreenUpdate ==>
      && !r.handled && r.request.None? && r.page.dirty
      && r.page.lw == CenterPlayingItem(p.lw.(hideCursor := false), status, p.lastCommand == ScreenUpdate)
    ensures listPage.None? && cmd != ScreenUpdate && !connected ==> !r.handled && r.request.None?
    // a declined command leaves the page as the prologue left it
    ensures (listPage.None? && cmd != ScreenUpdate && (!connected || cmd.Other? || cmd.NoCommand?))
              ==> r == Outcome(CommandPrologue(p, cmd, settings), false, None)
    ensures r.request.Some? ==> connected && listPage.None?
    ensures match cmd
      case Other(_) => r.request.None?
      case NoCommand => r.request.None?
      case _ => true
    // with a connection, the page's own commands are handled by their handlers after the prologue
    ensures listPage.None? && connected && cmd == Play ==> r == PlaySelected(CommandPrologue(p, cmd, settings), q)
    ensures listPage.None? && connected && cmd == Delete ==> r == DeleteSelected(CommandPrologue(p, cmd, settings))
    ensures listPage.None? && connected && cmd == Shuffle ==> r == ShuffleSelected(CommandPrologue(p, cmd, settings))
    ensures listPage.None? && connected && cmd == MoveUp ==> r == MoveSelectedUp(CommandPrologue(p, cmd, settings), reply)
    ensures listPage.None? && connected && cmd == MoveDown ==> r == MoveSelectedDown(CommandPrologue(p, cmd, settings), q, reply)
  {
    var prev := p.lastCommand;
    var p1 := CommandPrologue(p, cmd, settings);
    if listPage.Some? then Outcome(SaveSelection(p1.(lw := listPage.value.(hideCursor := p1.lw.hideCursor)), q), true, None)
    else if cmd == ScreenUpdate then
      Outcome(p1.(lw := CenterPlayingItem(p1.lw, status, prev == ScreenUpdate), dirty := true), false, None)
    else if !connected then Outcome(p1, false, None)
    else
      match cmd
      case Play => PlaySelected(p1, q)
      case Delete => DeleteSelected(p1)
      case Shuffle => ShuffleSelected(p1)
      case MoveUp => MoveSelectedUp(p1, reply)
      case MoveDown => MoveSelectedDown(p1, q, reply)
      case _ => Outcome(p1, false, None)
  }

  /**
   Handles a mouse event the list page did not take: a double click stops
   playback; otherwise the cursor moves to the clicked row, a button-1 click
   plays the song there, and a button-3 click deletes it, but only when the
   click left the cursor where it was.
   */
  function OnMouse(p: Page, q: Queue, row: nat, buttons: Buttons, connected: bool,
                   listPage: Option<ListWindow>, reply: Reply): (r: Outcome)
    ensures r.handled
    ensures listPage.Some? ==> r == Outcome(p.(lw := listPage.value), true, None)
    ensures listPage.None? && buttons.double1 ==> r == Outcome(p, true, Some(Stop))
    ensures (r.request.Some? && r.request.value.DeleteAt?) <==>
      (listPage.None? && !buttons.double1 && !buttons.click1 && buttons.click3
       && p.lw.SetCursor(p.lw.start + row).selected == p.lw.selected)
    ensures r.request.Some? && r.request.value.DeleteAt? ==> r.request.value.pos == p.lw.selected
    ensures (r.request.Some? && r.request.value.PlayId?) ==>
      buttons.click1 && connected && SelectedSong(p.lw.SetCursor(p.lw.start + row), q) == Some(r.request.value.id)
    ensures (listPage.None? && !buttons.double1 && buttons.click1 && connected
             && SelectedSong(p.lw.SetCursor(p.lw.start + row), q).Some?)
              ==> r.request == Some(PlayId(SelectedSong(p.lw.SetCursor(p.lw.start + row), q).value))
    ensures listPage.None? && !buttons.double1 ==> r.page.dirty
    // the cursor moves to the clicked row and the song there is remembered
    ensures (listPage.None? && !buttons.double1 && (buttons.click1 || !buttons.click3))
              ==> r.page.lw == p.lw.SetCursor(p.lw.start + row) && Anchored(r.page, q)
    // after a right click the window also follows the length of the queue the deletion left
    ensures (listPage.None? && !buttons.double1 && !buttons.click1 && buttons.click3)
              ==> r.page.lw == p.lw.SetCursor(p.lw.start + row).SetLength(r.page.lw.length)
    ensures r.page.hideCursorTimer == p.hideCursorTimer && r.page.lastCommand == p.lastCommand
  {
    if listPage.Some? then Outcome(p.(lw := listPage.value), true, None)
    else if buttons.double1 then Outcome(p, true, Some(Stop))
    else
      var before := p.lw.selected;
      var lw1 := p.lw.SetCursor(p.lw.start + row);
      if buttons.click1 then
        var song := SelectedSong(lw1, q);
        var request := if song.Some? && connected then Some(PlayId(song.value)) else None;
        Outcome(SaveSelection(p.(lw := lw1), q).(dirty := true), true, request)
      else if buttons.click3 then
        var delete := lw1.selected == before;
        var q' := if delete && reply.Done? then reply.queue else q;
        var lw2 := lw1.SetLength(|q'|);
        var request := if delete then Some(DeleteAt(lw1.selected)) else None;
        Outcome(SaveSelection(p.(lw := lw2), q').(dirty := true), true, request)
      else Outcome(SaveSelection(p.(lw := lw1), q).(dirty := true), true, None)
  }
}

=== FILE: queue_page.dfy ===
/**
 The queue page of the client (ncmpc's `QueuePage`): a list window over the
 play queue that keeps its cursor attached to a queue entry by the entry's
 song id while the server reorders, shrinks or grows the queue, re-centres on
 the playing song, and hides the cursor after a period of inactivity.

 The queue is the client's local copy of the server's queue, given as the
 sequence of its song ids.  The player status is an optional record, as the
 client's status pointer may be null.  The hide-cursor timer is a "pending"
 flag; scheduling and firing are the caller's business.
 */
module QueuePage {
  import opened Common
  import opened ListWindows

  /** Song ids are assigned by the server and stay with an entry while it is queued. */
  type SongId = nat

  /** The queue, in play order, as the ids of its entries. */
  type Queue = seq<SongId>

  /** The `int` the page stores for "no song". */
  const NoSong: int := -1

  datatype PlayerState = Unknown | Stopped | Playing | Paused

  /** The fields of the server's status the page reads: the player state,
      the id and the queue position of the current song (both -1 when none). */
  datatype Status = Status(state: PlayerState, songId: int, songPos: int)

  /** The user options the page reads: `hide-cursor` (seconds of inactivity
      before the cursor is hidden, 0 for never) and `auto-center`. */
  datatype Settings = Settings(hideCursor: nat, autoCenter: bool)

  /** The commands the model covers: those the page handles itself and
      `Other`, any command that reaches none of the page's own cases. */
  datatype Command = NoCommand | ScreenUpdate | Play | Delete | Shuffle | MoveUp | MoveDown | Other(code: nat)

  /**
   The page state: the list window, the id of the playing song and of the song
   last seen under the cursor (`NoSong` for none), whether the hide-cursor timer
   is pending, whether the player was playing at the last update, whether a
   repaint is due, and the previous command (a function-level static in the
   client, which has a single queue page).
   */
  datatype Page = Page(
    lw: ListWindow,
    currentSongId: int,
    selectedSongId: int,
    hideCursorTimer: bool,
    playing: bool,
    dirty: bool,
    lastCommand: Command)

  /** A page as constructed: no song, no timer, nothing playing, no command yet. */
  function NewPage(lw: ListWindow): (p: Page)
    ensures p.currentSongId == NoSong && p.selectedSongId == NoSong
    ensures !p.hideCursorTimer && !p.playing && p.lastCommand == NoCommand
  {
    Page(lw, NoSong, NoSong, false, false, false, NoCommand)
  }

  // ---------------------------------------------------------------------
  // The song under the cursor

  /** The song under the cursor: there is one only while no range is
      selected and the cursor is a row of the queue. */
  function SelectedSong(lw: ListWindow, q: Queue): (r: Option<SongId>)
    ensures r.Some? <==> !lw.rangeSelection && lw.selected < |q|
    ensures r.Some? ==> r.value == q[lw.selected]
  {
    if !lw.rangeSelection && lw.selected < |q| then Some(q[lw.selected]) else None
  }

  /** The id the page remembers for window `lw` over queue `q`. */
  function SavedId(lw: ListWindow, q: Queue): int {
    match SelectedSong(lw, q)
    case Some(id) => id
    case None => NoSong
  }

  /** The remembered id is that of the song under the cursor. */
  predicate Anchored(p: Page, q: Queue) {
    p.selectedSongId == SavedId(p.lw, q)
  }

  /** Remembers the id of the song under the cursor, or `NoSong` when there is none. */
  function SaveSelection(p: Page, q: Queue): (r: Page)
    ensures r.selectedSongId >= 0 <==> !p.lw.rangeSelection && p.lw.selected < |q|
    ensures r.selectedSongId >= 0 ==> r.selectedSongId == q[p.lw.selected]
    ensures r.selectedSongId < 0 ==> r.selectedSongId == NoSong
    ensures r == p.(selectedSongId := r.selectedSongId)
    ensures Anchored(r, q)
  {
    p.(selectedSongId := SavedId(p.lw, q))
  }

  /** The position of the first entry with id `id`, or -1 when there is none. */
  function FindId(q: Queue, id: SongId): (r: int)
    ensures -1 <= r < |q|
    ensures r == -1 <==> id !in q
    ensures r >= 0 ==> q[r] == id
    ensures forall j :: 0 <= j < r ==> q[j] != id
  {
    if |q| == 0 then -1
    else if q[0] == id then 0
    else
      var k := FindId(q[1..], id);
      if k < 0 then -1 else k + 1
  }

  /**
   Re-anchors the cursor after the queue may have changed: first the window
   length follows the queue; then, if a song was remembered and is no longer
   under the cursor, the cursor moves to the song's new position if it is
   still queued and stays at its numeric position otherwise; and the
   remembered id is refreshed from whatever is now under the cursor.
   */
  function RestoreSelection(p: Page, q: Queue): (r: Page)
    ensures r == p.(lw := r.lw, selectedSongId := r.selectedSongId)
    ensures r.lw.length == |q|
    ensures p.lw.Valid() ==> r.lw.Valid()
    // nothing remembered: only the length changes
    ensures p.selectedSongId < 0 ==> r == p.(lw := p.lw.SetLength(|q|))
    // the remembered song is still under the cursor: the cursor does not move
    ensures (p.selectedSongId >= 0 && SelectedSong(p.lw.SetLength(|q|), q) == Some(p.selectedSongId))
              ==> r == p.(lw := p.lw.SetLength(|q|))
    // the remembered song is still queued: the cursor is on it afterwards
    ensures (p.selectedSongId >= 0 && p.selectedSongId in q)
              ==> r.selectedSongId == p.selectedSongId && SelectedSong(r.lw, q) == Some(p.selectedSongId)
    // the remembered song is gone: the cursor keeps its numeric position
    ensures (p.selectedSongId >= 0 && p.selectedSongId !in q)
              ==> r.lw == p.lw.SetLength(|q|)
    // whenever a song was remembered, the memory is again the song under the cursor
    ensures p.selectedSongId >= 0 ==> Anchored(r, q)
  {
    var p1 := p.(lw := p.lw.SetLength(|q|));
    if p1.selectedSongId < 0 then p1
    else if SelectedSong(p1.lw, q) == Some(p1.selectedSongId) then p1
    else
      var pos := FindId(q, p1.selectedSongId);
      var p2 := if pos >= 0 then p1.(lw := p1.lw.SetCursor(pos)) else p1;
      SaveSelection(p2, q)
  }

  // ---------------------------------------------------------------------
  // The playing song

  /** The player is playing or paused, so it has a current song. */
  predicate HasCurrentSong(status: Option<Status>) {
    status.Some? && (status.value.state == Playing || status.value.state == Paused)
  }

  /** The id of the playing song, or `NoSong` unless a status is known and the
      player is playing or paused. */
  function CurrentSongId(status: Option<Status>): (r: int)
    ensures !HasCurrentSong(status) ==> r == NoSong
    ensures HasCurrentSong(status) ==> r == status.value.songId
  {
    if HasCurrentSong(status) then status.value.songId else NoSong
  }

  /**
   Scrolls the playing song to the middle of the window; with `centerCursor`
   the cursor moves onto it too, otherwise the cursor is only pulled back on
   screen.  Nothing happens without a status, while the player is stopped, or
   when the status has no song position.
   */
  function CenterPlayingItem(lw: ListWindow, status: Option<Status>, centerCursor: bool): (r: ListWindow)
    ensures !HasCurrentSong(status) || status.value.songPos < 0 ==> r == lw
    ensures lw.Valid() ==> r.Valid()
    ensures r.length == lw.length && r.height == lw.height && r.hideCursor == lw.hideCursor
    ensures (HasCurrentSong(status) && 0 <= status.value.songPos < lw.length && lw.height > 0)
              ==> r.Shows(status.value.songPos as nat)
    // the cursor ends on screen whenever the window re-centred
    ensures (lw.Valid() && lw.height > 0 && HasCurrentSong(status) && 0 <= status.value.songPos < lw.length)
              ==> r.Shows(r.selected)
    ensures (HasCurrentSong(status) && 0 <= status.value.songPos < lw.length && centerCursor)
              ==> r.selected == status.value.songPos && !r.rangeSelection
    ensures !centerCursor ==> r.rangeSelection == lw.rangeSelection && r.rangeBase == lw.rangeBase
    ensures (!centerCursor && lw.Center(if status.Some? && status.value.songPos >= 0 then status.value.songPos as nat else 0).Shows(lw.selected))
              ==> r.selected == lw.selected
  {
    if !HasCurrentSong(status) then lw
    else
      var idx := status.value.songPos;
      if idx < 0 then lw
      else
        var centered := lw.Center(idx as nat);
        if centerCursor then centered.SetCursor(idx as nat)
        else centered.FetchCursor()
  }

  /**
   Reacts to a possibly new playing song: when its id equals the recorded one
   nothing changes and the answer is false; otherwise the new id is recorded,
   the window re-centres on the song (without moving the cursor there) when
   `auto-center` is on and no range is selected, and the answer is true.
   */
  function OnSongChange(p: Page, status: Option<Status>, settings: Settings): (r: (Page, bool))
    ensures !r.1 <==> CurrentSongId(status) == p.currentSongId
    ensures !r.1 ==> r.0 == p
    ensures r.0 == p.(lw := r.0.lw, currentSongId := r.0.currentSongId)
    ensures r.0.currentSongId == CurrentSongId(status)
    ensures r.1 && settings.autoCenter && !p.lw.rangeSelection ==> r.0.lw == CenterPlayingItem(p.lw, status, false)
    ensures !settings.autoCenter || p.lw.rangeSelection ==> r.0.lw == p.lw
    ensures p.lw.Valid() ==> r.0.lw.Valid()
    ensures r.0.lw.length == p.lw.length
  {
    var id := CurrentSongId(status);
    if id == p.currentSongId then (p, false)
    else
      var p1 := p.(currentSongId := id);
      if settings.autoCenter && !p1.lw.rangeSelection then
        (p1.(lw := CenterPlayingItem(p1.lw, status, false)), true)
      else (p1, true)
  }

  /** A second report of the same status is never a song change. */
  lemma OnSongChangeSettles(p: Page, status: Option<Status>, settings: Settings)
    ensures !OnSongChange(OnSongChange(p, status, settings).0, status, settings).1
    ensures OnSongChange(OnSongChange(p, status, settings).0, status, settings).0 == OnSongChange(p, status, settings).0
  {
  }

  // ---------------------------------------------------------------------
  // Server notifications

  /** libmpdclient's idle-event bits for "the queue changed" and "the player changed". */
  const IdleQueue: bv32 := 0x4
  const IdlePlayer: bv32 := 0x8

  /** The batch `events` holds the event `bit`. */
  predicate HasEvent(events: bv32, bit: bv32) {
    events & bit != 0
  }

  /** The window follows a queue that may have changed: re-anchored on a
      QUEUE event, otherwise only resized.  Whether the player is playing is
      neither read nor changed, so it may be recorded before or after. */
  function FollowQueue(p: Page, q: Queue, queueEvent: bool): (r: Page)
    ensures r == p.(lw := r.lw, selectedSongId := r.selectedSongId)
    ensures r.lw.length == |q| && r.lw.hideCursor == p.lw.hideCursor
    ensures p.lw.Valid() ==> r.lw.Valid()
    ensures queueEvent ==> r == RestoreSelection(p, q)
    ensures !queueEvent ==> r.lw == p.lw.SetLength(|q|) && r.selectedSongId == p.selectedSongId
  {
    if queueEvent then RestoreSelection(p, q) else p.(lw := p.lw.SetLength(|q|))
  }

  /** The second half of an update: on a PLAYER event the playing song is
      consulted (`OnSongChange`), otherwise nothing happens. */
  function FollowPlayer(p: Page, status: Option<Status>, settings: Settings, playerEvent: bool): (r: (Page, bool))
    ensures r.0 == p.(lw := r.0.lw, currentSongId := r.0.currentSongId)
    ensures r.0.lw.length == p.lw.length && r.0.lw.hideCursor == p.lw.hideCursor
    ensures p.lw.Valid() ==> r.0.lw.Valid()
    ensures r.1 <==> playerEvent && CurrentSongId(status) != p.currentSongId
    ensures !playerEvent ==> r.0 == p
    ensures playerEvent ==> r.0.currentSongId == CurrentSongId(status)
    ensures (!playerEvent || !settings.autoCenter || p.lw.rangeSelection || CurrentSongId(status) == p.currentSongId)
              ==> r.0.lw == p.lw
  {
    if playerEvent then OnSongChange(p, status, settings) else (p, false)
  }

  /**
   Handles a batch of idle events: records whether the player is playing; on
   a QUEUE event re-anchors the cursor, otherwise only follows the queue
   length; consults the playing song only on a PLAYER event; and asks for a
   repaint when the queue changed or the playing song did.
   */
  function Update(p: Page, q: Queue, status: Option<Status>, events: bv32, settings: Settings): (r: Page)
    ensures r.playing <==> status.Some? && status.value.state == Playing
    ensures r.lw.length == |q|
    ensures p.lw.Valid() ==> r.lw.Valid()
    ensures !HasEvent(events, IdleQueue) ==> r.selectedSongId == p.selectedSongId
    ensures HasEvent(events, IdleQueue) ==> r.selectedSongId == RestoreSelection(p, q).selectedSongId
    ensures HasEvent(events, IdleQueue) && !HasEvent(events, IdlePlayer) ==>
      && r.lw == RestoreSelection(p, q).lw
      && (p.selectedSongId >= 0 ==> Anchored(r, q))
    ensures !HasEvent(events, IdleQueue) && !HasEvent(events, IdlePlayer) ==> r.lw == p.lw.SetLength(|q|)
    ensures !HasEvent(events, IdlePlayer) ==> r.currentSongId == p.currentSongId
    ensures HasEvent(events, IdlePlayer) ==> r.currentSongId == CurrentSongId(status)
    ensures r.dirty <==> p.dirty || HasEvent(events, IdleQueue)
                         || (HasEvent(events, IdlePlayer) && CurrentSongId(status) != p.currentSongId)
    ensures r.hideCursorTimer == p.hideCursorTimer && r.lastCommand == p.lastCommand
    ensures r.lw.hideCursor == p.lw.hideCursor
    // the playing song moves the window only when it is new and auto-center is on
    ensures !HasEvent(events, IdlePlayer) ==> r.lw == FollowQueue(p, q, HasEvent(events, IdleQueue)).lw
    ensures !settings.autoCenter || CurrentSongId(status) == p.currentSongId ==> r.lw == FollowQueue(p, q, HasEvent(events, IdleQueue)).lw
    ensures FollowQueue(p, q, HasEvent(events, IdleQueue)).lw.rangeSelection ==> r.lw == FollowQueue(p, q, HasEvent(events, IdleQueue)).lw
  {
    var queueEvent := HasEvent(events, IdleQueue);
    var (p2, changed) := FollowPlayer(FollowQueue(p, q, queueEvent), status, settings, HasEvent(events, IdlePlayer));
    p2.(playing := status.Some? && status.value.state == Playing, dirty := p2.dirty || changed || queueEvent)
  }

  /** A PLAYER event reporting a new playing song, with auto-center on and no
      range selection, scrolls the window so that the playing row is visible. */
  lemma UpdateRecentresNewSong(p: Page, q: Queue, status: Option<Status>, events: bv32, settings: Settings)
    requires HasEvent(events, IdlePlayer) && settings.autoCenter && !p.lw.rangeSelection
    requires CurrentSongId(status) != p.currentSongId
    requires HasCurrentSong(status) && 0 <= status.value.songPos < |q| && p.lw.height > 0
    ensures Update(p, q, status, events, settings).lw.Shows(status.value.songPos as nat)
  {
  }

  // ---------------------------------------------------------------------
  // The hide-cursor timer

  /** The timer is never pending while the `hide-cursor` option is off. */
  predicate TimerConsistent(p: Page, settings: Settings) {
    settings.hideCursor == 0 ==> !p.hideCursorTimer
  }

  /**
   The hide-cursor timer fired: it is no longer pending; while playing the
   cursor is hidden and the timer is not rescheduled, otherwise it is
   rescheduled.  The client asserts the option is on and the timer pending.
   */
  function OnHideCursorTimer(p: Page, settings: Settings): (r: Page)
    requires settings.hideCursor > 0 && p.hideCursorTimer
    ensures p.playing ==> r.lw.hideCursor && !r.hideCursorTimer
    ensures !p.playing ==> r.lw.hideCursor == p.lw.hideCursor && r.hideCursorTimer
    ensures r.lw == p.lw.(hideCursor := r.lw.hideCursor)
    ensures r == p.(lw := r.lw, hideCursorTimer := r.hideCursorTimer)
    ensures TimerConsistent(r, settings)
  {
    var p1 := p.(hideCursorTimer := false);
    if p1.playing then p1.(lw := p1.lw.(hideCursor := true))
    else p1.(hideCursorTimer := true)
  }

  /** With the `hide-cursor` option on, shows the cursor and schedules the
      timer; with it off, changes nothing. */
  function ArmHideCursor(p: Page, settings: Settings): (r: Page)
    ensures settings.hideCursor > 0 ==> r.hideCursorTimer && !r.lw.hideCursor
    ensures settings.hideCursor == 0 ==> r == p
    ensures r == p.(lw := p.lw.(hideCursor := r.lw.hideCursor), hideCursorTimer := r.hideCursorTimer)
  {
    if settings.hideCursor > 0 then p.(lw := p.lw.(hideCursor := false), hideCursorTimer := true) else p
  }

  /**
   The page is shown: with `hide-cursor` on the cursor is shown and the timer
   scheduled; then the cursor is re-anchored and the playing song consulted.
   The client asserts no timer is pending.
   */
  function OnOpen(p: Page, q: Queue, status: Option<Status>, settings: Settings): (r: Page)
    requires !p.hideCursorTimer
    ensures settings.hideCursor > 0 ==> r.hideCursorTimer && !r.lw.hideCursor
    ensures settings.hideCursor == 0 ==> !r.hideCursorTimer && r.lw.hideCursor == p.lw.hideCursor
    ensures r.lw.length == |q|
    ensures r.currentSongId == CurrentSongId(status)
    ensures r.selectedSongId == RestoreSelection(ArmHideCursor(p, settings), q).selectedSongId
    ensures (!settings.autoCenter || CurrentSongId(status) == p.currentSongId) ==>
      && r.lw == RestoreSelection(ArmHideCursor(p, settings), q).lw
      && (p.selectedSongId >= 0 ==> Anchored(r, q))
    ensures (&& settings.autoCenter && !p.lw.rangeSelection && CurrentSongId(status) != p.currentSongId
             && HasCurrentSong(status) && 0 <= status.value.songPos < |q| && p.lw.height > 0)
              ==> r.lw.Shows(status.value.songPos as nat)
    ensures p.lw.Valid() ==> r.lw.Valid()
    ensures TimerConsistent(r, settings)
  {
    var p1 := ArmHideCursor(p, settings);
    var p2 := RestoreSelection(p1, q);
    OnSongChange(p2, status, settings).0
  }

  /** The page is hidden: any pending timer is cancelled and nothing else changes. */
  function OnClose(p: Page): (r: Page)
    ensures !r.hideCursorTimer
    ensures r == p.(hideCursorTimer := false)
  {
    if p.hideCursorTimer then p.(hideCursorTimer := false) else p
  }

  /** What every command does first: remembers the command as the previous
      one, shows the cursor, and (re)schedules the timer when the option is on. */
  function CommandPrologue(p: Page, cmd: Command, settings: Settings): (r: Page)
    ensures r.lastCommand == cmd && !r.lw.hideCursor
    ensures settings.hideCursor > 0 ==> r.hideCursorTimer
    ensures settings.hideCursor == 0 ==> r.hideCursorTimer == p.hideCursorTimer
    ensures r == p.(lw := p.lw.(hideCursor := false), hideCursorTimer := r.hideCursorTimer, lastCommand := cmd)
    ensures TimerConsistent(p, settings) ==> TimerConsistent(r, settings)
  {
    var p1 := p.(lastCommand := cmd, lw := p.lw.(hideCursor := false));
    if settings.hideCursor > 0 then p1.(hideCursorTimer := true) else p1
  }
}

=== FILE: queue_properties.dfy ===
/**
 Properties of the queue page that relate several calls: re-anchoring is
 idempotent, follows a song through reordering and falls back to the numeric
 position when the song is gone; moving rows keeps the selection on the same
 songs; two screen updates in a row bring the cursor to the playing song; and
 the hide-cursor timer cycle.
 */
module QueueProperties {
  import opened Common
  import opened ListWindows
  import opened QueuePage
  import opened QueueCommands

  /** No song id occurs twice in the queue, as the server guarantees. */
  predicate DistinctIds(q: Queue) {
    forall i, j :: 0 <= i < j < |q| ==> q[i] != q[j]
  }

  // ---------------------------------------------------------------------
  // Re-anchoring

  /** Re-anchoring a second time against the same queue changes nothing. */
  lemma RestoreSelectionIdempotent(p: Page, q: Queue)
    ensures RestoreSelection(RestoreSelection(p, q), q) == RestoreSelection(p, q)
  {
  }

  /** Saving the selection and then re-anchoring against the same queue
      leaves the cursor and the memory where saving put them. */
  lemma SaveThenRestoreStays(p: Page, q: Queue)
    requires p.lw.length == |q|
    ensures RestoreSelection(SaveSelection(p, q), q) == SaveSelection(p, q)
  {
  }

  /** When the remembered song is at position `k` of the new queue, the
      cursor ends on `k` and the memory keeps the song, whatever the reordering. */
  lemma RestoreFollowsSong(p: Page, q: Queue, k: nat)
    requires DistinctIds(q) && k < |q| && p.selectedSongId == q[k]
    ensures RestoreSelection(p, q).lw.selected == k
    ensures RestoreSelection(p, q).selectedSongId == q[k]
    ensures !RestoreSelection(p, q).lw.rangeSelection
  {
  }

  /** When the remembered song has left the queue, the cursor keeps its
      numeric position, clamped to the new end of the queue. */
  lemma RestoreLosesSongPositionally(p: Page, q: Queue)
    requires p.lw.Valid() && p.selectedSongId >= 0 && p.selectedSongId !in q
    ensures RestoreSelection(p, q).lw.selected
            == if p.lw.selected < |q| then p.lw.selected else if |q| > 0 then |q| - 1 else 0
  {
  }

  /** Entries with ids 10, 11, 12 and the cursor on 11; the server reorders
      them to 12, 10, 11: the cursor follows 11 to row 2. */
  lemma ReorderScenario()
    ensures var lw := ListWindow(10, 3, 0, 1, 0, false, false);
      var p := NewPage(lw).(selectedSongId := 11);
      var r := RestoreSelection(p, [12, 10, 11]);
      r.lw.selected == 2 && r.selectedSongId == 11
  {
  }

  /** A repeated batch of idle events that does not hold both QUEUE and
      PLAYER changes nothing more: duplicate notifications are harmless. */
  lemma UpdateIdempotentUnlessBothEvents(p: Page, q: Queue, status: Option<Status>, events: bv32, settings: Settings)
    requires !(HasEvent(events, IdleQueue) && HasEvent(events, IdlePlayer))
    ensures var once := Update(p, q, status, events, settings);
      Update(once, q, status, events, settings) == once
  {
  }

  /** With both QUEUE and PLAYER in one batch a repeat can differ: the first
      batch re-centres on the new song and pulls the cursor on screen without
      saving it, and the repeat's QUEUE step moves the cursor back to the
      remembered song. */
  lemma UpdateBothEventsNotIdempotent()
    ensures var lw := ListWindow(2, 10, 0, 0, 0, false, false);
      var p := NewPage(lw).(selectedSongId := 0);
      var q: Queue := [0, 1, 2, 3, 4, 5, 6, 7, 8, 9];
      var status := Some(Status(Playing, 8, 8));
      var settings := Settings(0, true);
      var once := Update(p, q, status, 0xC, settings);
      once.lw.selected == 7 && Update(once, q, status, 0xC, settings).lw.selected == 0
  {
    var lw := ListWindow(2, 10, 0, 0, 0, false, false);
    var p := NewPage(lw).(selectedSongId := 0);
    var q: Queue := [0, 1, 2, 3, 4, 5, 6, 7, 8, 9];
    var status := Some(Status(Playing, 8, 8));
    var settings := Settings(0, true);
    // the first batch: the cursor's song is still in place, then the window re-centres on row 8
    assert FollowQueue(p, q, true) == p;
    var centered := lw.Center(8);
    assert centered.start == 7;
    assert centered.FetchCursor() == centered.MoveCursor(7);
    var once := Update(p, q, status, 0xC, settings);
    assert once.lw == CenterPlayingItem(lw, status, false);
    assert once.selectedSongId == 0;
    // the repeat: song 0 is no longer under the cursor, so the cursor returns to row 0
    assert q[0] == 0;
    assert FollowQueue(once, q, true).lw == once.lw.SetCursor(0);
  }

  // ---------------------------------------------------------------------
  // Moving rows

  /** After the server moved the song above the selection to its end, the
      window selects the rows one up, and they hold the songs it selected
      before; the remembered song is unchanged. */
  lemma MoveUpKeepsSelection(p: Page, q: Queue)
    requires p.lw.Valid() && p.lw.length == |q|
    requires p.lw.GetRange().startIndex > 0 && !p.lw.GetRange().IsEmpty()
    ensures var range := p.lw.GetRange();
      var q' := Moved(q, range.endIndex - 1, range.startIndex - 1);
      var r := MoveSelectedUp(p, Done(q')).page;
      && r.lw.GetRange() == Range(range.startIndex - 1, range.endIndex - 1)
      && (forall i :: range.startIndex <= i < range.endIndex ==> q'[i - 1] == q[i])
      && r.selectedSongId == SavedId(p.lw, q)
  {
  }

  /** After the server moved the song below the selection to its start, the
      window selects the rows one down, and they hold the songs it selected
      before; the remembered song is unchanged. */
  lemma MoveDownKeepsSelection(p: Page, q: Queue)
    requires p.lw.Valid() && p.lw.length == |q| <= U32
    requires p.lw.GetRange().endIndex < |q|
    ensures var range := p.lw.GetRange();
      var q' := Moved(q, range.startIndex, range.endIndex);
      var r := MoveSelectedDown(p, q, Done(q')).page;
      && r.lw.GetRange() == Range(range.startIndex + 1, range.endIndex + 1)
      && (forall i :: range.startIndex <= i < range.endIndex ==> q'[i + 1] == q[i])
      && r.selectedSongId == SavedId(p.lw, q)
  {
  }

  // ---------------------------------------------------------------------
  // Playing, deleting and shuffling

  /** On an anchored page, playing the selection plays the remembered song. */
  lemma PlayPlaysRemembered(p: Page, q: Queue)
    requires Anchored(p, q)
    ensures PlaySelected(p, q).handled <==> p.selectedSongId >= 0
    ensures PlaySelected(p, q).handled ==> PlaySelected(p, q).request == Some(PlayId(p.selectedSongId as nat))
  {
  }

  /** The queue after the server deleted the rows `[from, until)`. */
  function Deleted(q: Queue, from: nat, until: nat): (r: Queue)
    requires from <= until <= |q|
    ensures |r| == |q| - (until - from)
    ensures forall i :: 0 <= i < from ==> r[i] == q[i]
    ensures forall i :: from <= i < |r| ==> r[i] == q[i + (until - from)]
  {
    q[..from] + q[until..]
  }

  /** After the server deleted the selected rows, the cursor is on the song
      that followed them, when there is one. */
  lemma DeleteLandsOnFollowingSong(p: Page, q: Queue)
    requires p.lw.Valid() && p.lw.length == |q|
    requires p.lw.GetRange().endIndex < |q|
    ensures var range := p.lw.GetRange();
      var r := DeleteSelected(p);
      && r.request == Some(DeleteRange(range.startIndex, range.endIndex))
      && SelectedSong(r.page.lw, Deleted(q, range.startIndex, range.endIndex)) == Some(q[range.endIndex])
  {
  }

  /** Only a range selection of several rows is shuffled, and the shuffled
      rows are rows of the queue that include the cursor and the anchor. */
  lemma ShuffleStaysInSelection(p: Page, q: Queue)
    requires p.lw.Valid() && p.lw.length == |q|
    ensures var r := ShuffleSelected(p);
      r.handled ==>
        && p.lw.rangeSelection
        && r.request.value.until <= |q|
        && r.request.value.from <= p.lw.selected < r.request.value.until
        && r.request.value.from <= p.lw.rangeBase < r.request.value.until
  {
  }

  // ---------------------------------------------------------------------
  // The window stays valid

  /** Every command keeps the cursor, and the anchor of a range selection,
      on rows of the list, provided the list page's own handling does. */
  lemma CommandKeepsWindowValid(p: Page, q: Queue, status: Option<Status>, cmd: Command, settings: Settings,
                                connected: bool, listPage: Option<ListWindow>, reply: Reply)
    requires p.lw.Valid() && p.lw.length == |q|
    requires listPage.Some? ==> listPage.value.Valid()
    ensures OnCommand(p, q, status, cmd, settings, connected, listPage, reply).page.lw.Valid()
  {
  }

  /** Every mouse event keeps the cursor, and the anchor of a range
      selection, on rows of the list, provided the list page's own handling does. */
  lemma MouseKeepsWindowValid(p: Page, q: Queue, row: nat, buttons: Buttons, connected: bool,
                              listPage: Option<ListWindow>, reply: Reply)
    requires p.lw.Valid() && p.lw.length == |q|
    requires listPage.Some? ==> listPage.value.Valid()
    ensures OnMouse(p, q, row, buttons, connected, listPage, reply).page.lw.Valid()
  {
  }

  // ---------------------------------------------------------------------
  // Screen update

  /** Two screen updates in a row put the cursor on the playing song. */
  lemma ScreenUpdateTwiceSelectsPlaying(p: Page, q: Queue, status: Option<Status>, settings: Settings,
                                        connected: bool, reply: Reply)
    requires HasCurrentSong(status) && 0 <= status.value.songPos < p.lw.length
    ensures var first := OnCommand(p, q, status, ScreenUpdate, settings, connected, None, reply).page;
      var second := OnCommand(first, q, status, ScreenUpdate, settings, connected, None, reply).page;
      second.lw.selected == status.value.songPos
  {
  }

  // ---------------------------------------------------------------------
  // Hide-cursor timer

  /** The timer fires while playing: the cursor is hidden and the timer
      stops; the next command shows the cursor and re-arms the timer. */
  lemma HideThenCommandShows(p: Page, q: Queue, status: Option<Status>, cmd: Command, settings: Settings,
                             connected: bool, listPage: Option<ListWindow>, reply: Reply)
    requires settings.hideCursor > 0 && p.hideCursorTimer && p.playing
    ensures var hidden := OnHideCursorTimer(p, settings);
      && hidden.lw.hideCursor && !hidden.hideCursorTimer
      && var shown := OnCommand(hidden, q, status, cmd, settings, connected, listPage, reply).page;
         !shown.lw.hideCursor && shown.hideCursorTimer
  {
  }

  /** The timer fires while not playing: it is rescheduled and the cursor
      stays as it was, so it keeps firing until playback starts. */
  lemma TimerWaitsForPlayback(p: Page, settings: Settings)
    requires settings.hideCursor > 0 && p.hideCursorTimer && !p.playing
    ensures OnHideCursorTimer(p, settings) == p
  {
  }
}
